=== FILE: README.md ===
# DeepVerify image submission, modelled in Dafny

DeepVerify lets a user upload an image and get back a verdict,
`REAL_PHOTO` or `AI_GENERATED`, with a confidence percentage. This project
models the decision logic of that pipeline and proves properties of it:

- the client service (`aiService.js`, its duplicate `mockAiService.js`, and
  `apiConfig.js`): the ordered file validator, the mock prediction
  generator, normalisation of the backend's JSON, the timeout wrapper
  around `fetch`, the mapping of replies to error messages, and the health
  probe;
- the upload component (`UploadSection.jsx`): the idle / analyzing /
  result state machine, the preview object URLs it creates and revokes,
  and the view each state renders;
- the Flask backend (`app.py`): the guard order of `/api/predict`, the
  extension whitelist, how the model's output becomes a label and a
  confidence, `/api/health`, and the JSON bodies the client receives.

## Layout

| file | module | models |
|---|---|---|
| `wrappers.dfy` | `Wrappers` | `Option` for null and `Result` for a return or a throw |
| `js.dfy` | `Js` | JavaScript values, truthiness, `\|\|`, property reads with and without `?.`, `Math.round`, number printing in templates, `Error` messages |
| `domain.dfy` | `Domain` | file metadata, validation outcome, prediction, random draws |
| `api_config.dfy` | `ApiConfig` | `USE_MOCK_API`, `API_BASE_URL`, `ENDPOINTS`, `REQUEST_TIMEOUT`, `getApiUrl` |
| `previews.dfy` | `Previews` | the browser's object-URL registry, with a set of live handles as the leak counter |
| `mock_ai_service.dfy` | `MockAiService` | `mockAiService.js` |
| `ai_service.dfy` | `AiService` | `aiService.js` |
| `upload_section.dfy` | `UploadSection` | `UploadSection.jsx` |
| `backend.dfy` | `Backend` | `app.py` |
| `end_to_end.dfy` | `EndToEnd` | properties relating the two client copies, and relating the client to the backend |

Inputs that the code gets from the outside world appear as parameters:
- Each `Math.random()` call is a real in [0, 1). `Domain.Draws` holds the six draws of one mock analysis, in call order.
- The network is a function from a request (method, URL, deadline) to an exchange. The server either answers after some latency, never answers, or `fetch` rejects.
- The two `Date.now()` readings are integers.
- The image model's output is a row of reals, or the exception it raised.
- Python's `round(x, 2)` is a function parameter.

`aiService.js:25-27` repeats `generateConfidence` from `mockAiService.js:30-32` character for character. It is defined once, as `MockAiService.GenerateConfidence`, and `AiService` calls that definition.

## Behaviour worth knowing

- A failed analysis returns to idle and keeps the preview URL live
  (`UploadSection.jsx:98-101`). The idle view has no reset control, so that
  URL stays live until the next valid pick or unmount revokes it.
- Resetting is offered only by the result card. The idle view has no reset
  control.
- The reported mock `analysisTime` is `Math.round(2000 + r*1000)` for a
  draw r in [0, 1) (`mockAiService.js:55` and `mockAiService.js:78`), so
  3000 is a possible value. `MockAiService.AnalysisTimeReaches3000`
  exhibits it.
- For a non-ok reply the client reads `errorData.message`
  (`aiService.js:119`), while every error body of the backend carries only
  an `error` field. Every backend error therefore reaches the client as
  `Server error: <status>`: a 500 from a server without a model gives
  `Server error: 500` (`EndToEnd.BackendErrorsSurfaceAsStatus`,
  `EndToEnd.ModelNotLoadedScenario`).
- Validation reports one of three fixed message strings.
- The upload component imports `mockAiService.js`, whose analysis never
  throws. With the shipped code, the failure transition is therefore never
  taken. It is still modelled, for the real client.
- `/api/health` answers 200 with `model_loaded` false when no model is
  loaded (`app.py:102-109`). The client then reports the backend as online
  and healthy (`EndToEnd.OnlineWithoutModel`).

## Model

| member | source | states |
|---|---|---|
| `Js.RoundHalfUp` | frontend/src/services/aiService.js:128 | `Math.round` gives the integer within one half of x, with halves going up |
| `Js.RoundHalfUpUnique` | frontend/src/services/aiService.js:128 | that integer is unique, so the rounding is fully determined |
| `Js.MathRound` | frontend/src/services/aiService.js:128 | `Math.round` of any value is a number or NaN; the number is integral and within one half of a numeric input; null, false and "" give 0, true gives 1; undefined, NaN and objects give NaN (except an object with its own `toString` key, see Left out) |
| `Js.NatToString` | frontend/src/services/aiService.js:119 | the status in `Server error: ${status}` prints as a non-empty run of decimal digits with no leading zero |
| `Js.ParseNatToString` | frontend/src/services/aiService.js:119 | the printed status reads back as the same number |
| `Js.NatToStringInjective` | frontend/src/services/aiService.js:119 | different statuses give different messages |
| `ApiConfig.GetApiUrl` | frontend/src/services/apiConfig.js:53 | the URL is the base URL followed by exactly the endpoint path |
| `ApiConfig.GetApiUrlInjective` | frontend/src/services/apiConfig.js:53 | different endpoints are reached at different URLs |
| `ApiConfig.EndpointUrls` | frontend/src/services/apiConfig.js:35-43 | predict and health resolve to http://localhost:5000/api/predict and /api/health |
| `Previews.Create` | frontend/src/services/mockAiService.js:126-128 | a created preview handle is fresh and becomes the one extra live handle |
| `Previews.Revoke` | frontend/src/services/mockAiService.js:134-138 | revoking removes exactly the given handle from the live set; a null handle is a no-op |
| `Previews.RevokeIdempotent` | frontend/src/services/mockAiService.js:134-138 | revoking twice equals revoking once |
| `Previews.CreateThenRevoke` | frontend/src/services/mockAiService.js:126-138 | creating and then revoking a preview restores the live set |
| `MockAiService.GenerateConfidence` | frontend/src/services/mockAiService.js:30-32 | for a draw in [0,1) and min <= max, the score is an integer in [min, max] |
| `MockAiService.ConfidencePreimage` | frontend/src/services/mockAiService.js:30-32 | each score c comes from draws in an interval of width 1/(max-min+1), so all scores are equally likely |
| `MockAiService.ConfidenceReachable` | frontend/src/services/mockAiService.js:30-32 | every integer in [min, max] is produced by some draw |
| `MockAiService.AnalyzeImage` | frontend/src/services/mockAiService.js:53-89 | the reported time is `Math.round(2000 + 1000·delay)` of the delay draw, in [2000,3000]; label is REAL_PHOTO iff the label draw exceeds 0.5, otherwise AI_GENERATED; the confidence and the three sub-scores are `generateConfidence` of their own draws, integers in [85,98], [70,95], [75,98] and [80,99] |
| `MockAiService.AnalysisTimeReaches3000` | frontend/src/services/mockAiService.js:55-78 | a delay draw of 0.9995 reports exactly 3000 ms |
| `MockAiService.ValidateImage` | frontend/src/services/mockAiService.js:96-119 | a missing file, then a type outside jpeg/png/webp, then a size over 5242880 are rejected with their messages; valid iff the file is acceptable |
| `AiService.FetchWithTimeout` | frontend/src/services/aiService.js:32-50 | the reply is delivered iff it arrives before the deadline; a silent or late server gives the timeout message; a fetch rejection keeps its own message |
| `AiService.DeadlinesDiffer` | frontend/src/services/aiService.js:173-178 | a server taking between 5 s and 30 s serves predictions but fails the 5 s health probe |
| `AiService.ServerErrorMessage` | frontend/src/services/aiService.js:117-120 | a non-ok reply's message is the object body's truthy `message` field, otherwise "Server error: status"; an unparsable body counts as `{}`, a JSON string, number or boolean body also gives "Server error: status", and a JSON `null` body gives the TypeError text of reading `message` of null; it is never empty |
| `AiService.Normalize` | frontend/src/services/aiService.js:126-136 | a truthy nested label wins over the flat one; a truthy nested confidence is the one rounded, a falsy one falls back to the flat field; each sub-score is the truthy nested one, else the truthy flat one, else 0; the time is the client-observed elapsed time |
| `AiService.Decode` | frontend/src/services/aiService.js:122-136 | an ok body decodes to a prediction iff it parses to a non-null value; an unparsable body fails with its SyntaxError text, and a `null` body with the TypeError of reading `prediction` of null |
| `AiService.Rethrown` | frontend/src/services/aiService.js:137-142 | the catch keeps a non-empty message and replaces an empty one with the connection advice |
| `AiService.RealAnalyzeImage` | frontend/src/services/aiService.js:99-143 | a prediction results iff the reply arrives in time, is ok and parses to a non-null body; a non-ok reply gives the server error message; a timeout, abort or `fetch` rejection and a failed decode are rethrown through the catch with their own message; errors never have an empty message |
| `AiService.MockAnalyzeImage` | frontend/src/services/aiService.js:59-76 | the reported time is `Math.round(2000 + 1000·delay)`, in [2000,3000]; label is REAL_PHOTO iff the label draw exceeds 0.5; the confidence and sub-scores are `generateConfidence` of their own draws, in [85,98], [70,95], [75,98] and [80,99] |
| `AiService.AnalyzeImage` | frontend/src/services/aiService.js:155-163 | with the mock flag the result is the mock prediction, which always succeeds with a valid label and confidence; without it the result is exactly `realAnalyzeImage`'s; only the real branch can fail, and never with an empty message |
| `AiService.ShippedConfigurationIsMock` | frontend/src/services/aiService.js:155-158 | with USE_MOCK_API = true every analysis is the mock one |
| `AiService.CheckApiHealth` | frontend/src/services/aiService.js:168-187 | mock mode reports "mock" and healthy without I/O; otherwise "online" and healthy for an ok reply within 5 s, "error" and unhealthy for a non-ok reply, "offline" and unhealthy with the error's message when the probe throws; only "offline" carries an error |
| `AiService.ValidateImage` | frontend/src/services/aiService.js:192-215 | a missing file, then a type outside jpeg/png/webp, then a size over 5242880 are rejected with their messages; valid iff the file is acceptable |
| `UploadSection.HandleFile` | src/components/UploadSection.jsx:68-89 | an invalid file only sets the validator's message and keeps the URLs; a valid one revokes the old preview, holds one fresh live preview, records the file and enters analyzing with the error cleared |
| `UploadSection.Pick` | src/components/UploadSection.jsx:107-112 | an empty pick changes nothing; a file is handed to the file handler |
| `UploadSection.PredictionSucceeded` | src/components/UploadSection.jsx:95-97 | analyzing becomes result with the prediction stored; the selected file, the preview, the URLs and the error are kept |
| `UploadSection.PredictionFailed` | src/components/UploadSection.jsx:98-101 | analyzing becomes idle with "Analysis failed. Please try again."; the preview stays live |
| `UploadSection.Reset` | src/components/UploadSection.jsx:164-173 | from any state: idle with no file, preview, result or error, and the held preview revoked |
| `UploadSection.PreviewCleanup` | src/components/UploadSection.jsx:52-58 | when a render changes the preview, the previous handle is revoked and nothing else changes |
| `UploadSection.Unmount` | src/components/UploadSection.jsx:52-58 | unmounting revokes the held preview |
| `UploadSection.ExactlyOneView` | src/components/UploadSection.jsx:305-307 | exactly one view is rendered, the one of the current phase |
| `UploadSection.BannerOnlyWhenIdle` | src/components/UploadSection.jsx:248-253 | the error banner appears only in the idle view and shows the stored error |
| `UploadSection.EnabledByRenderedControls` | src/components/UploadSection.jsx:193-215 | a pick is possible iff a rendered view has the file input, and a reset iff one has the reset button |
| `UploadSection.CleanupIsRedundant` | src/components/UploadSection.jsx:52-58 | the handlers already revoke the preview they replace, so the effect's second revoke frees nothing |
| `UploadSection.InitSatisfiesInv` | src/components/UploadSection.jsx:24-28 | the mount state satisfies the workflow invariant |
| `UploadSection.StepPreservesInv` | src/components/UploadSection.jsx:68-173 | every event keeps the invariant: the only live URL is the held preview; non-idle states hold a file and preview and show no error; a result exists exactly in the result phase; the selected file was valid |
| `UploadSection.RunPreservesInv` | src/components/UploadSection.jsx:68-173 | every sequence of events keeps the invariant |
| `UploadSection.AtMostOneLivePreview` | src/components/UploadSection.jsx:80-84 | after any run from mount, at most one URL is live, and it is the held preview |
| `UploadSection.NothingLeaksAfterReset` | src/components/UploadSection.jsx:164-173 | after reset or unmount no URL is live |
| `UploadSection.PicksIgnoredWhileAnalyzing` | src/components/UploadSection.jsx:305-307 | while analyzing, any number of picks leaves the state unchanged |
| `UploadSection.InvalidPickStaysIdle` | src/components/UploadSection.jsx:70-77 | an invalid file keeps the state idle and the URLs untouched, and shows one of the three validation messages |
| `UploadSection.MockCycle` | src/components/UploadSection.jsx:83-97 | a valid pick followed by a mock prediction ends in the result phase with a confidence in [85,98] and one live URL |
| `Backend.Extension` | backend/app.py:142 | the extension is the dot-free suffix after the last '.', or the whole name when there is no '.' |
| `Backend.Lower` | backend/app.py:142 | lowering maps A-Z to a-z and keeps every other character |
| `Backend.AllowedFileIffSuffix` | backend/app.py:141-147 | a name is accepted iff the text after its last '.', lowercased, is png, jpg, jpeg or webp |
| `Backend.UpperCaseExtensionAllowed` | backend/app.py:141-143 | any name ending in ".JPG" is accepted |
| `Backend.LastExtensionDecides` | backend/app.py:142-143 | any name ending in ".jpg.exe" is refused |
| `Backend.DotlessNameIsItsOwnExtension` | backend/app.py:142-143 | a name without a dot is accepted iff the whole name, lowercased, is one of the allowed extensions |
| `Backend.Interpret` | backend/app.py:161-182 | two outputs: REAL_PHOTO iff the real score is strictly larger, confidence 100 times the larger score; otherwise REAL_PHOTO iff the score exceeds 0.5, confidence 100 times max(p, 1-p) |
| `Backend.SigmoidConfidenceBounds` | backend/app.py:173-182 | a single output in [0,1] gives a confidence in [50,100] |
| `Backend.SoftmaxConfidenceBounds` | backend/app.py:161-170 | a softmax pair gives a confidence in [50,100], and a tie gives AI_GENERATED at 50 |
| `Backend.Predict` | backend/app.py:111-197 | a missing model gives 500 before any input check; then a missing image part, an empty filename and a bad extension each give 400; a prediction is 200 with the interpreted output; any exception gives 500 |
| `Backend.HealthCheck` | backend/app.py:102-109 | health always answers 200 with the model-loaded flag |
| `Backend.ToJson` | backend/app.py:184-197 | a success body nests label and confidence under prediction with success true; an error body has success false and the text under error, never under message |
| `EndToEnd.ValidatorsAgree` | frontend/src/services/mockAiService.js:96-119 | the two validators agree on every input |
| `EndToEnd.MockAnalyzersAgree` | frontend/src/services/mockAiService.js:53-89 | the two mock generators agree on every draw |
| `EndToEnd.BackendErrorsSurfaceAsStatus` | frontend/src/services/aiService.js:117-120 | every backend error answered in time reaches the client as "Server error: status" |
| `EndToEnd.ModelNotLoadedScenario` | backend/app.py:119-123 | with no model loaded the client's error is "Server error: 500" |
| `EndToEnd.PredictionRoundTrip` | frontend/src/services/aiService.js:122-135 | a backend prediction answered in time reaches the client with its label and its displayed confidence rounded; a displayed 0 becomes NaN |
| `EndToEnd.RoundingScenario` | frontend/src/services/aiService.js:127-128 | a nested confidence of 92.7 with label REAL_PHOTO becomes 93 |
| `EndToEnd.OnlineWithoutModel` | backend/app.py:102-109 | the client reports online and healthy whether or not the model loaded |

## Left out

- Network and clock I/O are not modelled: `fetch`, `FormData`, `AbortController`, `setTimeout` timing, the simulated `delay`, `Date.now` and ISO timestamps. Only their outcomes enter, as parameters. A reply that arrives exactly at the deadline is taken to lose to the abort.
- `AiService.FetchWithTimeout`: a `fetch` rejection is assumed to happen before the deadline.
- `Js.MathRound`: JavaScript turns a non-empty numeric string such as "92.7" into a number. The model treats every non-empty string as NaN.
- `Js.MathRound`: a JSON object with its own `toString` key (for example `{"toString": 1}`) has no usable conversion to a primitive, so JavaScript throws the TypeError "Cannot convert object to primitive value". The model gives NaN instead. `Js.ErrorOf` likewise keeps such a value as a `StringOf` message where `new Error(...)` would throw. As a result, `AiService.Normalize`, `AiService.ServerErrorMessage` and `AiService.RealAnalyzeImage` do not model that throw. For a nested confidence like this, `realAnalyzeImage` would throw (caught and rethrown at `aiService.js:137-141`), while the model returns a prediction with NaN confidence. For such a `message` field on an error body, the model returns a `StringOf` message.
- JSON arrays in response bodies are not modelled.
- `String()` of a non-string number is not modelled. Such an error message is kept as the value it was made from (`Js.Message.StringOf`).
- Floating point is not modelled; probabilities and scores are exact reals. Python's `round(x, 2)` is the parameter `round2`.
- `Backend.Lower` handles ASCII letters only. No non-ASCII character lowercases into the letters of the four allowed extensions, so acceptance is unaffected.
- `Backend.Predict`: the text of the bad-extension error prints the allowed set in one fixed order. Python's set order varies from run to run.
- `Backend.Predict`: a filename of `None` is not modelled; filenames are strings.
- `load_model`, `preprocess_image`, `model.predict`, Flask routing and CORS are foreign libraries. They enter as whether the model loaded and what inference yields.
- `console.log` / `console.error` and the backend's `print` are logging only.
- `aiService.js` has `createImagePreview` and `revokeImagePreview` (lines 220-231), the same code as in `mockAiService.js`. Both are modelled once, by `Previews.Create` and `Previews.Revoke`.
- Not modelled (presentation only): GSAP animations (the reset runs as an immediate transition), the drag highlight (`isDragging`), the glow colour, the statistics strip, the analyzing and result card contents, pages, navigation, footer, hero, features and scroll-to-top.
- `IMG_SIZE`, `MODEL_PATH` and `CLASSES` belong to image preprocessing and model loading. `CLASSES` is not used by `predict`; its order appears as `Backend.Label`.

=== FILE: ai_service.dfy ===
/** The client's prediction service: mock and real analysis behind one
    entry point, the backend health probe, the file validator, and the
    timeout wrapper around `fetch`. */
module AiService {
  import opened Wrappers
  import opened Js
  import opened Domain
  import ApiConfig
  import MockAiService

  const TimeoutMessage := "Request timeout - server tidak merespon"
  const ConnectFailMessage := "Gagal terhubung ke server. Pastikan backend sudah berjalan."

  /** The health probe's own timeout, shorter than `ApiConfig.RequestTimeout`. */
  const HealthTimeout: nat := 5000

  // ---------------------------------------------------------------------
  // Transport
  // ---------------------------------------------------------------------

  /** What the client asks `fetch` for: HTTP method, URL and abort deadline. */
  datatype Request = Request(verb: string, url: string, timeout: nat)

  /** A response body as `response.json()` sees it. */
  datatype Body = Parsed(json: Value) | Unparsable(syntaxError: string)

  datatype Reply = Reply(status: nat, body: Body)

  /** How the network treats a request: the server answers after `latency`
      milliseconds, never answers, or `fetch` rejects (refused connection,
      DNS failure) with a message. */
  datatype Exchange =
    | Answers(latency: nat, reply: Reply)
    | Silent
    | Fails(message: string)

  /** The network and server, as seen from the client. */
  type Network = Request -> Exchange

  /** `response.ok`. */
  predicate IsOk(status: nat) {
    200 <= status <= 299
  }

  /** The prediction call: a POST to the predict endpoint with the default timeout. */
  function PredictRequest(): Request {
    Request("POST", ApiConfig.GetApiUrl(ApiConfig.Path(ApiConfig.Predict)), ApiConfig.RequestTimeout)
  }

  /** The health probe: a GET to the health endpoint with a 5 s timeout. */
  function HealthRequest(): Request {
    Request("GET", ApiConfig.GetApiUrl(ApiConfig.Path(ApiConfig.Health)), HealthTimeout)
  }

  /** `fetchWithTimeout`: the reply when it arrives before the deadline; the
      abort at the deadline becomes the timeout error; a rejection of `fetch`
      is passed on with its own message. A reply arriving exactly at the
      deadline is taken to lose the race against the abort. */
  function FetchWithTimeout(req: Request, net: Network): (r: Result<Reply, Message>)
    ensures r.Ok? <==> net(req).Answers? && net(req).latency < req.timeout
    ensures r.Ok? ==> r.value == net(req).reply
    ensures net(req).Fails? ==> r == Err(Text(net(req).message))
    ensures !net(req).Fails? && r.Err? ==> r.error == Text(TimeoutMessage)
  {
    match net(req)
    case Answers(latency, reply) =>
      if latency < req.timeout then Ok(reply) else Err(Text(TimeoutMessage))
    case Silent => Err(Text(TimeoutMessage))
    case Fails(m) => Err(Text(m))
  }

  /** A server that takes between 5 and 30 seconds serves predictions but
      fails the health probe: the two calls use different deadlines. */
  lemma DeadlinesDiffer(net: Network, latency: nat, reply: Reply)
    requires HealthTimeout <= latency < ApiConfig.RequestTimeout
    requires net(PredictRequest()) == Answers(latency, reply)
    requires net(HealthRequest()) == Answers(latency, reply)
    ensures FetchWithTimeout(PredictRequest(), net) == Ok(reply)
    ensures FetchWithTimeout(HealthRequest(), net) == Err(Text(TimeoutMessage))
  {
  }

  // ---------------------------------------------------------------------
  // Real analysis
  // ---------------------------------------------------------------------

  /** The message thrown for a non-ok reply: the body's `message` field when
      it is truthy, otherwise "Server error: <status>". An unparsable body
      counts as `{}`; a body that is JSON `null` makes the field read throw. */
  function ServerErrorMessage(reply: Reply): (m: Message)
    ensures !EmptyMessage(m)
    ensures reply.body.Unparsable? ==> m == Text("Server error: " + NatToString(reply.status))
    ensures reply.body.Parsed? && reply.body.json.Obj? ==>
              var field := Get(reply.body.json, "message");
              m == (if Truthy(field) then ErrorOf(field) else Text("Server error: " + NatToString(reply.status)))
    ensures reply.body == Parsed(Null) ==> m == Text(NullReadMessage("message"))
    ensures reply.body.Parsed? && !reply.body.json.Obj? && !Nullish(reply.body.json) ==>
              m == Text("Server error: " + NatToString(reply.status))
  {
    var errorData := match reply.body
      case Parsed(v) => v
      case Unparsable(_) => Obj(map[]);
    if Nullish(errorData) then Text(NullReadMessage("message"))
    else ErrorOf(Or(Get(errorData, "message"), Str("Server error: " + NatToString(reply.status))))
  }

  /** `data.prediction?.<key>`. */
  function Nested(data: Value, key: string): Value {
    OptGet(Get(data, "prediction"), key)
  }

  /** `data.prediction?.details?.<key>`. */
  function NestedScore(data: Value, key: string): Value {
    OptGet(Nested(data, "details"), key)
  }

  /** `data.details?.<key>`. */
  function FlatScore(data: Value, key: string): Value {
    OptGet(Get(data, "details"), key)
  }

  /** `v` is what `first || second || fallback` picks: the first truthy
      operand, or the fallback when neither is truthy. */
  predicate PicksFirstTruthy(first: Value, second: Value, fallback: Value, v: Value) {
    && (Truthy(first) ==> v == first)
    && (!Truthy(first) && Truthy(second) ==> v == second)
    && (!Truthy(first) && !Truthy(second) ==> v == fallback)
  }

  /** `data.prediction?.details?.<key> || data.details?.<key> || 0`. */
  function Score(data: Value, key: string): Value {
    Or(Or(NestedScore(data, key), FlatScore(data, key)), Num(0.0))
  }

  /** Normalisation of a success body: the nested `prediction.*` fields
      first, the flat top-level ones as fallback, the confidence rounded and
      missing sub-scores set to 0. */
  function Normalize(data: Value, elapsed: int): (p: Prediction)
    requires !Nullish(data)
    ensures Truthy(Nested(data, "label")) ==> p.verdict == Nested(data, "label")
    ensures !Truthy(Nested(data, "label")) ==> p.verdict == Get(data, "label")
    ensures Nested(data, "confidence").Num? && Nested(data, "confidence").n != 0.0 ==>
              p.confidence == Num(RoundHalfUp(Nested(data, "confidence").n) as real)
    ensures !Truthy(Nested(data, "confidence")) ==> p.confidence == MathRound(Get(data, "confidence"))
    ensures p.confidence.Num? || p.confidence.NotANumber?
    ensures Truthy(Nested(data, "confidence")) ==> p.confidence == MathRound(Nested(data, "confidence"))
    ensures PicksFirstTruthy(NestedScore(data, "artifactScore"), FlatScore(data, "artifactScore"),
                             Num(0.0), p.details.artifactScore)
    ensures PicksFirstTruthy(NestedScore(data, "consistencyScore"), FlatScore(data, "consistencyScore"),
                             Num(0.0), p.details.consistencyScore)
    ensures PicksFirstTruthy(NestedScore(data, "patternScore"), FlatScore(data, "patternScore"),
                             Num(0.0), p.details.patternScore)
    ensures p.analysisTime == elapsed
  {
    Prediction(
      Or(Nested(data, "label"), Get(data, "label")),
      MathRound(Or(Nested(data, "confidence"), Get(data, "confidence"))),
      elapsed,
      Details(Score(data, "artifactScore"), Score(data, "consistencyScore"), Score(data, "patternScore")))
  }

  /** `response.json()` on an ok reply, then normalisation. */
  function Decode(body: Body, elapsed: int): (r: Result<Prediction, Message>)
    ensures r.Ok? <==> body.Parsed? && !Nullish(body.json)
    ensures r.Ok? ==> r.value == Normalize(body.json, elapsed)
    ensures body.Unparsable? ==> r == Err(Text(body.syntaxError))
    ensures body.Parsed? && Nullish(body.json) ==> r == Err(Text(NullReadMessage("prediction")))
  {
    match body
    case Unparsable(m) => Err(Text(m))
    case Parsed(data) =>
      // JSON never decodes to undefined; null makes `data.prediction` throw.
      if Nullish(data) then Err(Text(NullReadMessage("prediction")))
      else Ok(Normalize(data, elapsed))
  }

  /** The catch block: rethrow with the same message, or the connection
      advice when the message is empty. */
  function Rethrown(m: Message): (r: Message)
    ensures !EmptyMessage(r)
    ensures !EmptyMessage(m) ==> r == m
    ensures EmptyMessage(m) ==> r == Text(ConnectFailMessage)
  {
    if EmptyMessage(m) then Text(ConnectFailMessage) else m
  }

  /** `realAnalyzeImage`, with the two `Date.now()` readings as inputs. */
  function RealAnalyzeImage(net: Network, startTime: int, endTime: int): (r: Result<Prediction, Message>)
    ensures r.Err? ==> !EmptyMessage(r.error)
    ensures r.Ok? <==>
              && FetchWithTimeout(PredictRequest(), net).Ok?
              && IsOk(net(PredictRequest()).reply.status)
              && net(PredictRequest()).reply.body.Parsed?
              && !Nullish(net(PredictRequest()).reply.body.json)
    ensures r.Ok? ==> r.value == Normalize(net(PredictRequest()).reply.body.json, endTime - startTime)
    ensures FetchWithTimeout(PredictRequest(), net).Ok? && !IsOk(net(PredictRequest()).reply.status) ==>
              r == Err(ServerErrorMessage(net(PredictRequest()).reply))
    ensures net(PredictRequest()).Silent? ==> r == Err(Text(TimeoutMessage))
    ensures FetchWithTimeout(PredictRequest(), net).Err? ==>
              r == Err(Rethrown(FetchWithTimeout(PredictRequest(), net).error))
    ensures FetchWithTimeout(PredictRequest(), net).Ok? && IsOk(net(PredictRequest()).reply.status)
              && Decode(net(PredictRequest()).reply.body, endTime - startTime).Err? ==>
              r == Err(Rethrown(Decode(net(PredictRequest()).reply.body, endTime - startTime).error))
  {
    var attempt := match FetchWithTimeout(PredictRequest(), net)
      case Err(m) => Err(m)
      case Ok(reply) =>
        if !IsOk(reply.status) then Err(ServerErrorMessage(reply))
        else Decode(reply.body, endTime - startTime);
    match attempt
    case Ok(p) => Ok(p)
    case Err(m) => Err(Rethrown(m))
  }

  // ---------------------------------------------------------------------
  // Mock analysis
  // ---------------------------------------------------------------------

  /** `generateConfidence(min, max)`: this file repeats the helper of the
      stand-alone mock service verbatim, so the model uses that definition. */
  function GenerateConfidence(r: real, min: int, max: int): int
    requires Unit(r)
  {
    MockAiService.GenerateConfidence(r, min, max)
  }

  /** `mockAnalyzeImage`. */
  function MockAnalyzeImage(d: Draws): (p: Prediction)
    requires ValidDraws(d)
    ensures p.verdict == Str(RealPhoto) <==> d.verdict > 0.5
    ensures p.verdict == Str(RealPhoto) || p.verdict == Str(AiGenerated)
    ensures IntegerIn(p.confidence, 85, 98)
    ensures 2000 <= p.analysisTime <= 3000
    ensures IntegerIn(p.details.artifactScore, 70, 95)
    ensures IntegerIn(p.details.consistencyScore, 75, 98)
    ensures IntegerIn(p.details.patternScore, 80, 99)
    ensures p.analysisTime == RoundHalfUp(2000.0 + d.delay * 1000.0)
    ensures p.confidence == Num(MockAiService.GenerateConfidence(d.confidence, 85, 98) as real)
    ensures p.details == Details(Num(MockAiService.GenerateConfidence(d.artifact, 70, 95) as real),
                                 Num(MockAiService.GenerateConfidence(d.consistency, 75, 98) as real),
                                 Num(MockAiService.GenerateConfidence(d.pattern, 80, 99) as real))
  {
    var processingTime := 2000.0 + d.delay * 1000.0;
    var isReal := d.verdict > 0.5;
    Prediction(
      if isReal then Str(RealPhoto) else Str(AiGenerated),
      Num(GenerateConfidence(d.confidence, 85, 98) as real),
      RoundHalfUp(processingTime),
      Details(
        Num(GenerateConfidence(d.artifact, 70, 95) as real),
        Num(GenerateConfidence(d.consistency, 75, 98) as real),
        Num(GenerateConfidence(d.pattern, 80, 99) as real)))
  }

  // ---------------------------------------------------------------------
  // Entry points
  // ---------------------------------------------------------------------

  /** `analyzeImage`: the configured strategy. The mock never fails; the
      real call fails only with a non-empty message. */
  function AnalyzeImage(useMock: bool, d: Draws, net: Network, startTime: int, endTime: int)
    : (r: Result<Prediction, Message>)
    requires ValidDraws(d)
    ensures useMock ==> r.Ok? && IntegerIn(r.value.confidence, 85, 98)
    ensures useMock ==> (r.value.verdict == Str(RealPhoto) || r.value.verdict == Str(AiGenerated))
    ensures !useMock && r.Ok? ==> r.value.analysisTime == endTime - startTime
    ensures r.Err? ==> !useMock && !EmptyMessage(r.error)
    ensures useMock ==> r == Ok(MockAnalyzeImage(d))
    ensures !useMock ==> r == RealAnalyzeImage(net, startTime, endTime)
  {
    if useMock then Ok(MockAnalyzeImage(d)) else RealAnalyzeImage(net, startTime, endTime)
  }

  /** With the shipped configuration every analysis is a mock one. */
  lemma ShippedConfigurationIsMock(d: Draws, net: Network, startTime: int, endTime: int)
    requires ValidDraws(d)
    ensures AnalyzeImage(ApiConfig.UseMockApi, d, net, startTime, endTime) == Ok(MockAnalyzeImage(d))
  {
  }

  /** The object `checkApiHealth` resolves to; `error` is present only when
      the probe threw. */
  datatype HealthReport = HealthReport(status: string, healthy: bool, error: Option<Message>)

  /** `checkApiHealth`: "mock" without I/O in mock mode; otherwise "online"
      on an ok reply, "error" on any other reply, and "offline" with the
      error's message when the probe throws (including the 5 s abort). */
  function CheckApiHealth(useMock: bool, net: Network): (h: HealthReport)
    ensures h.healthy <==> h.status in {"mock", "online"}
    ensures h.error.Some? <==> h.status == "offline"
    ensures useMock ==> h == HealthReport("mock", true, None)
    ensures !useMock && FetchWithTimeout(HealthRequest(), net).Ok? && IsOk(net(HealthRequest()).reply.status) ==>
              h == HealthReport("online", true, None)
    ensures !useMock && FetchWithTimeout(HealthRequest(), net).Ok? && !IsOk(net(HealthRequest()).reply.status) ==>
              h == HealthReport("error", false, None)
    ensures !useMock && FetchWithTimeout(HealthRequest(), net).Err? ==>
              h == HealthReport("offline", false, Some(FetchWithTimeout(HealthRequest(), net).error))
  {
    if useMock then HealthReport("mock", true, None)
    else match FetchWithTimeout(HealthRequest(), net)
      case Ok(reply) =>
        if IsOk(reply.status) then HealthReport("online", true, None)
        else HealthReport("error", false, None)
      case Err(m) => HealthReport("offline", false, Some(m))
  }

  /** `validateImage` (this copy is textually the same as the mock service's). */
  function ValidateImage(file: Option<FileMeta>): (v: Validation)
    ensures file.None? ==> v == Invalid(NoFileMessage)
    ensures file.Some? ==>
              (file.value.mimeType !in ImageTypes ==> v == Invalid(InvalidTypeMessage))
    ensures file.Some? ==>
              (file.value.mimeType in ImageTypes ==>
                 (v == Invalid(TooLargeMessage) <==> file.value.size > 5242880))
    ensures v.Valid? <==> Acceptable(file)
  {
    var validTypes := ["image/jpeg", "image/png", "image/webp"];
    var maxSize := 5 * 1024 * 1024;
    if file.None? then Invalid(NoFileMessage)
    else if file.value.mimeType !in validTypes then Invalid(InvalidTypeMessage)
    else if file.value.size > maxSize then Invalid(TooLargeMessage)
    else Valid
  }
}

=== FILE: api_config.dfy ===
/** The client's static configuration: the mock switch, the backend base URL,
    the endpoint paths and the request timeout. */
module ApiConfig {

  /** The mock/real switch, fixed when the bundle is built. */
  const UseMockApi := true

  const ApiBaseUrl := "http://localhost:5000"

  /** The keys of the `ENDPOINTS` object. */
  datatype Endpoint = Predict | Health

  /** The path each endpoint key maps to. */
  function Path(e: Endpoint): string {
    match e
    case Predict => "/api/predict"
    case Health => "/api/health"
  }

  /** Milliseconds a request may take before it is aborted. */
  const RequestTimeout: nat := 30000

  /** `getApiUrl`: the base URL followed by the endpoint path. */
  function GetApiUrl(endpoint: string): (url: string)
    ensures |url| == |ApiBaseUrl| + |endpoint|
    ensures url[..|ApiBaseUrl|] == ApiBaseUrl
    ensures url[|ApiBaseUrl|..] == endpoint
  {
    ApiBaseUrl + endpoint
  }

  /** Distinct endpoints are reached at distinct URLs. */
  lemma GetApiUrlInjective(a: string, b: string)
    requires GetApiUrl(a) == GetApiUrl(b)
    ensures a == b
  {
    assert a == GetApiUrl(a)[|ApiBaseUrl|..];
    assert b == GetApiUrl(b)[|ApiBaseUrl|..];
  }

  /** The two endpoints resolve to the backend's predict and health routes. */
  lemma EndpointUrls()
    ensures GetApiUrl(Path(Predict)) == "http://localhost:5000/api/predict"
    ensures GetApiUrl(Path(Health)) == "http://localhost:5000/api/health"
    ensures Path(Predict) != Path(Health)
  {
  }
}

=== FILE: backend.dfy ===
/** The Flask backend's request handling: the guard order of the predict
    endpoint, the filename-extension whitelist, the reading of the model's
    output as a label and a confidence, the health endpoint, and the JSON
    bodies the client receives. Image decoding and the network itself are
    inputs. */
module Backend {
  import opened Wrappers
  import opened Js
  import Domain

  /** `CLASSES`, in the order of a two-output model's columns. */
  datatype Label = AiGenerated | RealPhoto

  function LabelName(l: Label): string {
    match l
    case AiGenerated => Domain.AiGenerated
    case RealPhoto => Domain.RealPhoto
  }

  const ModelNotLoadedMessage := "Model not loaded. Please check server logs."
  const NoImageMessage := "No image file provided"
  const NoFileMessage := "No file selected"

  /** `allowed_extensions`. */
  const AllowedExtensions: set<string> := {"png", "jpg", "jpeg", "webp"}

  /** How the set prints inside the error message, in one iteration order. */
  const AllowedExtensionsRepr := "{'png', 'jpg', 'jpeg', 'webp'}"

  /** numpy's message when row 0 of the model output has no column 0. */
  const EmptyOutputMessage := "index 0 is out of bounds for axis 0 with size 0"

  /** The `image` part of the multipart request. */
  datatype Part = Part(filename: string)

  /** What preprocessing and `model.predict` yield for the uploaded file:
      the first row of the output, or the message of the exception raised. */
  datatype Inference = Scores(row: seq<real>) | Raised(message: string)

  /** A response: a prediction, an error with its text, or the health report. */
  datatype Body =
    | Predicted(verdict: Label, confidence: real)
    | Failure(error: string)
    | Status(modelLoaded: bool)

  datatype HttpResponse = HttpResponse(status: nat, body: Body)

  // ---------------------------------------------------------------------
  // Extension check
  // ---------------------------------------------------------------------

  /** `filename.rsplit('.', 1)[-1]`: the text after the last '.', or the
      whole name when it has no '.'. */
  function Extension(filename: string): (ext: string)
    ensures '.' !in ext
    ensures |ext| <= |filename| && filename[|filename| - |ext|..] == ext
    ensures '.' in filename ==> filename[|filename| - |ext| - 1] == '.'
    ensures '.' !in filename ==> ext == filename
    decreases |filename|
  {
    if filename == [] then []
    else if filename[|filename| - 1] == '.' then []
    else
      var init := filename[..|filename| - 1];
      assert '.' in filename ==> '.' in init by {
        if '.' in filename {
          var i :| 0 <= i < |filename| && filename[i] == '.';
          assert init[i] == '.';
        }
      }
      Extension(init) + [filename[|filename| - 1]]
  }

  /** `str.lower()` on ASCII letters; other characters are kept. */
  function Lower(s: string): (t: string)
    ensures |t| == |s|
    ensures forall i :: 0 <= i < |s| ==> t[i] == if 'A' <= s[i] <= 'Z' then (s[i] - 'A' + 'a') as char else s[i]
  {
    seq(|s|, i requires 0 <= i < |s| => if 'A' <= s[i] <= 'Z' then (s[i] - 'A' + 'a') as char else s[i])
  }

  /** The extension test of the predict endpoint. */
  predicate AllowedFile(filename: string) {
    Lower(Extension(filename)) in AllowedExtensions
  }

  /** The name is accepted iff what follows its last '.' is one of the four
      extensions up to letter case; a name without '.' is compared whole. */
  lemma AllowedFileIffSuffix(prefix: string, ext: string)
    requires '.' !in ext
    ensures AllowedFile(prefix + "." + ext) <==> Lower(ext) in AllowedExtensions
  {
    var name := prefix + "." + ext;
    assert name[|prefix|] == '.';
    assert name[|name| - |ext|..] == ext;
    assert Extension(name) == ext;
  }

  /** Text without capital letters is its own lower case. */
  lemma LowerKeepsLowercase(s: string)
    requires forall i :: 0 <= i < |s| ==> !('A' <= s[i] <= 'Z')
    ensures Lower(s) == s
  {
  }

  /** Letter case does not matter: "<stem>.JPG" passes. */
  lemma UpperCaseExtensionAllowed(stem: string)
    ensures AllowedFile(stem + ".JPG")
  {
    var ext := "JPG";
    assert stem + ".JPG" == stem + "." + ext;
    AllowedFileIffSuffix(stem, ext);
    assert Lower(ext) == "jpg";
  }

  /** Only the last extension counts: "<stem>.jpg.exe" is refused. */
  lemma LastExtensionDecides(stem: string)
    ensures !AllowedFile(stem + ".jpg.exe")
  {
    var ext := "exe";
    assert stem + ".jpg.exe" == (stem + ".jpg") + "." + ext;
    AllowedFileIffSuffix(stem + ".jpg", ext);
    LowerKeepsLowercase(ext);
  }

  /** A name without a dot is compared whole, so a bare "jpg" passes. */
  lemma DotlessNameIsItsOwnExtension(name: string)
    requires '.' !in name
    ensures AllowedFile(name) <==> Lower(name) in AllowedExtensions
  {
    assert Extension(name) == name;
  }

  // ---------------------------------------------------------------------
  // Interpreting the model output
  // ---------------------------------------------------------------------

  function Max(a: real, b: real): real {
    if a >= b then a else b
  }

  /** The label and the confidence (a percentage) read from the first output
      row. Two columns are (AI, real) probabilities and the real label needs a
      strictly larger score; any other width is a sigmoid whose first column
      is the probability of a real photo. */
  function Interpret(row: seq<real>): (res: (Label, real))
    requires |row| >= 1
    ensures |row| == 2 ==> (res.0 == RealPhoto <==> row[1] > row[0])
    ensures |row| == 2 ==> res.1 == 100.0 * Max(row[0], row[1])
    ensures |row| != 2 ==> (res.0 == RealPhoto <==> row[0] > 0.5)
    ensures |row| != 2 ==> res.1 == 100.0 * Max(row[0], 1.0 - row[0])
  {
    if |row| == 2 then
      var aiProb := row[0];
      var realProb := row[1];
      if realProb > aiProb then (RealPhoto, realProb * 100.0) else (AiGenerated, aiProb * 100.0)
    else
      var prob := row[0];
      if prob > 0.5 then (RealPhoto, prob * 100.0) else (AiGenerated, (1.0 - prob) * 100.0)
  }

  /** A sigmoid output in [0, 1] gives a confidence of at least 50 %. */
  lemma SigmoidConfidenceBounds(row: seq<real>)
    requires |row| >= 1 && |row| != 2
    requires 0.0 <= row[0] <= 1.0
    ensures 50.0 <= Interpret(row).1 <= 100.0
  {
  }

  /** A softmax pair (non-negative, summing to 1) gives at least 50 %, and a
      tie goes to AI_GENERATED. */
  lemma SoftmaxConfidenceBounds(row: seq<real>)
    requires |row| == 2
    requires row[0] >= 0.0 && row[1] >= 0.0 && row[0] + row[1] == 1.0
    ensures 50.0 <= Interpret(row).1 <= 100.0
    ensures row[0] == row[1] ==> Interpret(row) == (AiGenerated, 50.0)
  {
  }

  // ---------------------------------------------------------------------
  // Endpoints
  // ---------------------------------------------------------------------

  /** `predict`: the model check, then the presence of the `image` part, then
      an empty filename, then the extension; only then the image is run
      through the model. Any exception becomes a 500 with its text. */
  function Predict(modelLoaded: bool, image: Option<Part>, inference: Inference): (r: HttpResponse)
    ensures !modelLoaded ==> r == HttpResponse(500, Failure(ModelNotLoadedMessage))
    ensures modelLoaded && image.None? ==> r == HttpResponse(400, Failure(NoImageMessage))
    ensures modelLoaded && image.Some? && image.value.filename == "" ==>
              r == HttpResponse(400, Failure(NoFileMessage))
    ensures modelLoaded && image.Some? && image.value.filename != "" && !AllowedFile(image.value.filename) ==>
              r == HttpResponse(400, Failure("Invalid file type: " + Lower(Extension(image.value.filename))
                                             + ". Allowed: " + AllowedExtensionsRepr))
    ensures r.body.Predicted? <==>
              && modelLoaded && image.Some? && image.value.filename != "" && AllowedFile(image.value.filename)
              && inference.Scores? && |inference.row| >= 1
    ensures r.body.Predicted? ==> r == HttpResponse(200, Predicted(Interpret(inference.row).0, Interpret(inference.row).1))
    ensures r.status == 200 <==> r.body.Predicted?
    ensures r.status in {200, 400, 500} && !r.body.Status?
    ensures r.status == 400 ==> modelLoaded && !(image.Some? && image.value.filename != "" && AllowedFile(image.value.filename))
  {
    if !modelLoaded then HttpResponse(500, Failure(ModelNotLoadedMessage))
    else if image.None? then HttpResponse(400, Failure(NoImageMessage))
    else if image.value.filename == "" then HttpResponse(400, Failure(NoFileMessage))
    else
      var ext := Lower(Extension(image.value.filename));
      if ext !in AllowedExtensions then
        HttpResponse(400, Failure("Invalid file type: " + ext + ". Allowed: " + AllowedExtensionsRepr))
      else match inference
        case Raised(message) => HttpResponse(500, Failure(message))
        case Scores(row) =>
          if |row| == 0 then HttpResponse(500, Failure(EmptyOutputMessage))
          else
            var (l, confidence) := Interpret(row);
            HttpResponse(200, Predicted(l, confidence))
  }

  /** `health_check`: always 200 and "online", reporting whether the model loaded. */
  function HealthCheck(modelLoaded: bool): (r: HttpResponse)
    ensures r.status == 200 && r.body == Status(modelLoaded)
  {
    HttpResponse(200, Status(modelLoaded))
  }

  /** The JSON a body serialises to, as the client decodes it. `round2`
      stands for Python's `round(confidence, 2)`. */
  function ToJson(body: Body, round2: real -> real): (v: Value)
    ensures v.Obj?
    ensures body.Predicted? ==>
              Get(v, "success") == Bool(true)
              && Get(Get(v, "prediction"), "label") == Str(LabelName(body.verdict))
              && Get(Get(v, "prediction"), "confidence") == Num(round2(body.confidence))
    ensures body.Failure? ==> Get(v, "success") == Bool(false) && Get(v, "error") == Str(body.error)
    ensures !body.Status? ==> "message" !in v.fields
  {
    match body
    case Predicted(l, confidence) =>
      Obj(map["success" := Bool(true),
              "prediction" := Obj(map["label" := Str(LabelName(l)), "confidence" := Num(round2(confidence))])])
    case Failure(error) =>
      Obj(map["success" := Bool(false), "error" := Str(error)])
    case Status(modelLoaded) =>
      Obj(map["status" := Str("online"), "model_loaded" := Bool(modelLoaded),
              "message" := Str("DeepVerify API is running")])
  }
}

=== FILE: domain.dfy ===
/** Entities shared by the client services and the upload workflow. */
module Domain {
  import opened Js
  import opened Wrappers

  /** The metadata of a browser `File` the client examines: its declared MIME
      type and its length in bytes. The bytes themselves are never read. */
  datatype FileMeta = FileMeta(mimeType: string, size: nat)

  /** The `{ valid, error? }` object returned by `validateImage`. */
  datatype Validation = Valid | Invalid(error: string)

  const NoFileMessage := "No file selected"
  const InvalidTypeMessage := "Invalid file type. Please upload JPG, PNG, or WEBP images only."
  const TooLargeMessage := "File too large. Maximum size is 5MB."

  /** The image MIME types the client accepts. */
  const ImageTypes: set<string> := {"image/jpeg", "image/png", "image/webp"}

  /** The files the client accepts, stated independently of either validator:
      present, of one of the three image MIME types, at most 5 MiB. */
  predicate Acceptable(file: Option<FileMeta>) {
    && file.Some?
    && file.value.mimeType in ImageTypes
    && file.value.size <= 5242880
  }

  const RealPhoto := "REAL_PHOTO"
  const AiGenerated := "AI_GENERATED"

  /** The sub-scores of a prediction, each a JavaScript value. */
  datatype Details = Details(artifactScore: Value, consistencyScore: Value, patternScore: Value)

  /** A prediction as the client hands it to the upload workflow; `verdict`
      is the source's `label` field (`label` is a Dafny keyword). The fields
      are JavaScript values because the real client copies them out of a JSON
      body without checking their types. The ISO timestamp is not modelled. */
  datatype Prediction = Prediction(verdict: Value, confidence: Value, analysisTime: int, details: Details)

  /** The six `Math.random()` draws one mock analysis makes, in call order:
      the simulated delay, the label, the confidence and the three sub-scores. */
  datatype Draws = Draws(delay: real, verdict: real, confidence: real,
                         artifact: real, consistency: real, pattern: real)

  predicate Unit(r: real) {
    0.0 <= r < 1.0
  }

  /** Every draw is a value `Math.random()` can return. */
  predicate ValidDraws(d: Draws) {
    Unit(d.delay) && Unit(d.verdict) && Unit(d.confidence)
    && Unit(d.artifact) && Unit(d.consistency) && Unit(d.pattern)
  }

  /** `v` is an integral number in [lo, hi]. */
  predicate IntegerIn(v: Value, lo: int, hi: int) {
    v.Num? && v.n == v.n.Floor as real && lo as real <= v.n <= hi as real
  }
}

=== FILE: end_to_end.dfy ===
/** Properties that join the parts: the two copies of the client service
    agree, and what the client makes of each response the backend can send. */
module EndToEnd {
  import opened Wrappers
  import opened Js
  import opened Domain
  import ApiConfig
  import AiService
  import MockAiService
  import Backend

  /** The service's validator and the mock service's validator agree on every
      input. */
  lemma ValidatorsAgree(file: Option<FileMeta>)
    ensures AiService.ValidateImage(file) == MockAiService.ValidateImage(file)
  {
  }

  /** The service's mock branch and the mock service produce the same
      prediction from the same draws. */
  lemma MockAnalyzersAgree(d: Draws)
    requires ValidDraws(d)
    ensures AiService.MockAnalyzeImage(d) == MockAiService.AnalyzeImage(d)
  {
  }

  /** The network delivers the backend's response `resp` to request `req`
      after `latency` milliseconds. */
  predicate Serves(net: AiService.Network, req: AiService.Request, resp: Backend.HttpResponse,
                   round2: real -> real, latency: nat)
  {
    net(req) == AiService.Answers(latency, AiService.Reply(resp.status, AiService.Parsed(Backend.ToJson(resp.body, round2))))
  }

  /** Every error the predict endpoint answers with in time reaches the
      client as "Server error: <status>": the backend puts its text under
      `error` and the client reads `message`. */
  lemma BackendErrorsSurfaceAsStatus(modelLoaded: bool, image: Option<Backend.Part>, inference: Backend.Inference,
                                     net: AiService.Network, round2: real -> real, latency: nat,
                                     startTime: int, endTime: int)
    requires Backend.Predict(modelLoaded, image, inference).status != 200
    requires Serves(net, AiService.PredictRequest(), Backend.Predict(modelLoaded, image, inference), round2, latency)
    requires latency < ApiConfig.RequestTimeout
    ensures var resp := Backend.Predict(modelLoaded, image, inference);
            AiService.RealAnalyzeImage(net, startTime, endTime) == Err(Text("Server error: " + NatToString(resp.status)))
  {
    var resp := Backend.Predict(modelLoaded, image, inference);
    var body := Backend.ToJson(resp.body, round2);
    assert Get(body, "message") == Undefined;
  }

  /** With no model loaded the client sees "Server error: 500", not the
      backend's explanation. */
  lemma ModelNotLoadedScenario(net: AiService.Network, round2: real -> real, latency: nat,
                               image: Option<Backend.Part>, inference: Backend.Inference)
    requires Serves(net, AiService.PredictRequest(), Backend.Predict(false, image, inference), round2, latency)
    requires latency < ApiConfig.RequestTimeout
    ensures AiService.RealAnalyzeImage(net, 0, 0) == Err(Text("Server error: 500"))
  {
    assert Backend.Predict(false, image, inference).status == 500;
    BackendErrorsSurfaceAsStatus(false, image, inference, net, round2, latency, 0, 0);
    assert NatToString(500) == "500" by {
      assert NatToString(5) == "5";
      assert NatToString(50) == "50";
    }
    assert "Server error: " + "500" == "Server error: 500";
  }

  /** A prediction the backend answers in time reaches the client with its
      label and with its displayed confidence rounded to an integer, unless
      that confidence is 0: then the nested field is falsy, the absent flat
      field is used, and the confidence becomes NaN. */
  lemma PredictionRoundTrip(modelLoaded: bool, image: Option<Backend.Part>, inference: Backend.Inference,
                            net: AiService.Network, round2: real -> real, latency: nat,
                            startTime: int, endTime: int)
    requires Backend.Predict(modelLoaded, image, inference).status == 200
    requires Serves(net, AiService.PredictRequest(), Backend.Predict(modelLoaded, image, inference), round2, latency)
    requires latency < ApiConfig.RequestTimeout
    ensures var resp := Backend.Predict(modelLoaded, image, inference);
            var r := AiService.RealAnalyzeImage(net, startTime, endTime);
            && r.Ok?
            && r.value.verdict == Str(Backend.LabelName(resp.body.verdict))
            && r.value.analysisTime == endTime - startTime
            && (round2(resp.body.confidence) != 0.0 ==>
                  r.value.confidence == Num(RoundHalfUp(round2(resp.body.confidence)) as real))
            && (round2(resp.body.confidence) == 0.0 ==> r.value.confidence == NotANumber)
  {
    var resp := Backend.Predict(modelLoaded, image, inference);
    ClientReadsSuccessBody(resp.body.verdict, resp.body.confidence, round2, endTime - startTime);
  }

  /** How the client normalises the body of a backend prediction. */
  lemma ClientReadsSuccessBody(l: Backend.Label, confidence: real, round2: real -> real, elapsed: int)
    ensures var p := AiService.Normalize(Backend.ToJson(Backend.Predicted(l, confidence), round2), elapsed);
            && p.verdict == Str(Backend.LabelName(l))
            && (round2(confidence) != 0.0 ==> p.confidence == Num(RoundHalfUp(round2(confidence)) as real))
            && (round2(confidence) == 0.0 ==> p.confidence == NotANumber)
  {
    var body := Backend.ToJson(Backend.Predicted(l, confidence), round2);
    assert Get(body, "label") == Undefined;
    assert Get(body, "confidence") == Undefined;
  }

  /** The rounding example: a nested confidence of 92.7 becomes 93. */
  lemma RoundingScenario(net: AiService.Network, latency: nat)
    requires latency < ApiConfig.RequestTimeout
    requires net(AiService.PredictRequest()) == AiService.Answers(latency, AiService.Reply(200,
               AiService.Parsed(Obj(map["prediction" := Obj(map["label" := Str(RealPhoto), "confidence" := Num(92.7)])]))))
    ensures var r := AiService.RealAnalyzeImage(net, 0, 0);
            r.Ok? && r.value.verdict == Str(RealPhoto) && r.value.confidence == Num(93.0)
  {
    var data := Obj(map["prediction" := Obj(map["label" := Str(RealPhoto), "confidence" := Num(92.7)])]);
    assert AiService.RealAnalyzeImage(net, 0, 0) == Ok(AiService.Normalize(data, 0));
    assert AiService.Nested(data, "label") == Str(RealPhoto);
    assert AiService.Nested(data, "confidence") == Num(92.7);
    assert RoundHalfUp(92.7) == 93 by {
      RoundHalfUpUnique(92.7, 93);
    }
  }

  /** The health endpoint answers 200 whether or not the model loaded, so a
      client that hears back in time reports the backend online and healthy
      even when every prediction would fail. */
  lemma OnlineWithoutModel(modelLoaded: bool, net: AiService.Network, round2: real -> real, latency: nat)
    requires Serves(net, AiService.HealthRequest(), Backend.HealthCheck(modelLoaded), round2, latency)
    requires latency < AiService.HealthTimeout
    ensures AiService.CheckApiHealth(false, net) == AiService.HealthReport("online", true, None)
  {
  }
}

=== FILE: js.dfy ===
/** The fragment of JavaScript value semantics the client service relies on:
    truthiness, `||`, property reads with and without optional chaining,
    `Math.round`, template-literal number printing and `Error` messages. */
module Js {

  /** A JavaScript value as far as the client examines it. A decoded JSON body
      uses every constructor except `Undefined` and `NotANumber`; `Num` is a
      finite number. JSON arrays are not modelled. */
  datatype Value =
    | Undefined
    | Null
    | Bool(b: bool)
    | Num(n: real)
    | NotANumber
    | Str(s: string)
    | Obj(fields: map<string, Value>)

  /** JavaScript truthiness: everything except undefined, null, false, 0, NaN and "". */
  predicate Truthy(v: Value) {
    match v
    case Undefined => false
    case Null => false
    case Bool(b) => b
    case Num(n) => n != 0.0
    case NotANumber => false
    case Str(s) => s != ""
    case Obj(_) => true
  }

  predicate Nullish(v: Value) {
    v.Undefined? || v.Null?
  }

  /** `a || b`: the first operand when it is truthy, the second otherwise. */
  function Or(a: Value, b: Value): Value {
    if Truthy(a) then a else b
  }

  /** `v.key` on a value that is neither null nor undefined. Booleans, numbers
      and strings carry none of the property names the client reads, so only
      an object yields something other than undefined. */
  function Get(v: Value, key: string): Value {
    if v.Obj? && key in v.fields then v.fields[key] else Undefined
  }

  /** `v?.key`: undefined when `v` is null or undefined, `v.key` otherwise. */
  function OptGet(v: Value, key: string): Value {
    if Nullish(v) then Undefined else Get(v, key)
  }

  /** The TypeError text V8 gives for reading `key` of null. */
  function NullReadMessage(key: string): string {
    "Cannot read properties of null (reading '" + key + "')"
  }

  /** `Math.round` on a finite number: the nearest integer, halves rounded up. */
  function RoundHalfUp(x: real): (k: int)
    ensures k as real - 0.5 <= x < k as real + 0.5
  {
    (x + 0.5).Floor
  }

  /** The integer nearest to x is unique, so `RoundHalfUp` is the only
      function meeting its contract. */
  lemma RoundHalfUpUnique(x: real, k: int)
    requires k as real - 0.5 <= x < k as real + 0.5
    ensures k == RoundHalfUp(x)
  {
    var j := RoundHalfUp(x);
    assert j as real - 0.5 <= x < j as real + 0.5;
    assert -1.0 < (k - j) as real < 1.0;
  }

  /** `Number(v)` for the values the client rounds. A non-empty string is
      taken to be non-numeric. */
  function ToNumber(v: Value): Value {
    match v
    case Undefined => NotANumber
    case Null => Num(0.0)
    case Bool(b) => Num(if b then 1.0 else 0.0)
    case Num(_) => v
    case NotANumber => NotANumber
    case Str(s) => if s == "" then Num(0.0) else NotANumber
    case Obj(_) => NotANumber
  }

  /** `Math.round(v)`: always a number, an integral one unless it is NaN.
      null, false and "" count as 0, true as 1; undefined and objects give
      NaN. An object with its own `toString` key, on which JavaScript throws,
      is treated like any other object. */
  function MathRound(v: Value): (r: Value)
    ensures r.Num? || r.NotANumber?
    ensures r.Num? ==> r.n == r.n.Floor as real
    ensures v.Num? ==> r.Num? && r.n - 0.5 <= v.n < r.n + 0.5
    ensures v.Null? || v == Str("") ==> r == Num(0.0)
    ensures v.Bool? ==> r == Num(if v.b then 1.0 else 0.0)
    ensures v.Undefined? || v.NotANumber? || v.Obj? ==> r == NotANumber
  {
    match ToNumber(v)
    case Num(x) => Num(RoundHalfUp(x) as real)
    case _ => NotANumber
  }

  function DigitChar(d: nat): char
    requires d < 10
  {
    "0123456789"[d]
  }

  function CharDigit(c: char): nat {
    if '0' <= c <= '9' then (c - '0') as nat else 0
  }

  /** The decimal text a template literal gives for a non-negative integer. */
  function NatToString(n: nat): (s: string)
    ensures |s| >= 1
    ensures forall i :: 0 <= i < |s| ==> '0' <= s[i] <= '9'
    ensures |s| > 1 ==> s[0] != '0'
  {
    if n < 10 then [DigitChar(n)] else NatToString(n / 10) + [DigitChar(n % 10)]
  }

  /** Reads a string of decimal digits back as a number. */
  function ParseNat(s: string): nat {
    if s == [] then 0 else 10 * ParseNat(s[..|s| - 1]) + CharDigit(s[|s| - 1])
  }

  lemma CharDigitOfDigitChar(d: nat)
    requires d < 10
    ensures CharDigit(DigitChar(d)) == d
  {
  }

  /** Printing loses nothing: the number can be read back from its text. */
  lemma {:induction false} ParseNatToString(n: nat)
    ensures ParseNat(NatToString(n)) == n
  {
    var s := NatToString(n);
    if n < 10 {
      CharDigitOfDigitChar(n);
      assert s[..0] == [];
    } else {
      var prefix := NatToString(n / 10);
      assert s == prefix + [DigitChar(n % 10)];
      assert s[..|s| - 1] == prefix;
      CharDigitOfDigitChar(n % 10);
      ParseNatToString(n / 10);
    }
  }

  /** Distinct numbers print differently. */
  lemma NatToStringInjective(m: nat, n: nat)
    requires NatToString(m) == NatToString(n)
    ensures m == n
  {
    ParseNatToString(m);
    ParseNatToString(n);
  }

  /** The `message` of an `Error` constructed from a value: `String(v)`.
      Strings are kept as text; any other value is kept as the value whose
      `String()` form the message is, because JavaScript number printing is
      not modelled. */
  datatype Message = Text(s: string) | StringOf(v: Value)

  /** `new Error(v).message`. */
  function ErrorOf(v: Value): Message {
    if v.Str? then Text(v.s) else StringOf(v)
  }

  /** Whether `error.message` is the empty (falsy) string. `String(v)` is
      never empty for a value that is not a string. */
  predicate EmptyMessage(m: Message) {
    m == Text("")
  }
}

=== FILE: mock_ai_service.dfy ===
/** The stand-alone mock service the upload workflow imports: a random
    prediction generator, the file validator and preview release. */
module MockAiService {
  import opened Wrappers
  import opened Js
  import opened Domain

  const ValidTypes := ["image/jpeg", "image/png", "image/webp"]
  const MaxSize := 5 * 1024 * 1024

  /** `generateConfidence(min, max)` with `r` the `Math.random()` draw:
      `floor(r * (max - min + 1)) + min`. */
  function GenerateConfidence(r: real, min: int, max: int): (c: int)
    requires Unit(r)
    ensures min <= max ==> min <= c <= max
  {
    var n := (max - min + 1) as real;
    (r * n).Floor + min
  }

  /** The draws giving confidence `c` form the interval
      [(c - min) / n, (c - min + 1) / n) with n = max - min + 1: every
      value in the range has the same share of the draws. */
  lemma {:induction false} ConfidencePreimage(r: real, min: int, max: int, c: int)
    requires Unit(r)
    requires min <= c <= max
    ensures GenerateConfidence(r, min, max) == c
        <==> (c - min) as real / (max - min + 1) as real <= r < (c - min + 1) as real / (max - min + 1) as real
  {
    var n := (max - min + 1) as real;
    var k := (c - min) as real;
    assert n > 0.0;
    assert k / n <= r <==> k <= r * n by {
      assert (k / n) * n == k;
    }
    assert r < (k + 1.0) / n <==> r * n < k + 1.0 by {
      assert ((k + 1.0) / n) * n == k + 1.0;
    }
  }

  /** Every integer of [min, max] is produced by some draw. */
  lemma ConfidenceReachable(min: int, max: int, c: int)
    requires min <= c <= max
    ensures var r := (c - min) as real / (max - min + 1) as real;
            Unit(r) && GenerateConfidence(r, min, max) == c
  {
    var n := (max - min + 1) as real;
    var r := (c - min) as real / n;
    assert r * n == (c - min) as real;
    assert 0.0 <= r < 1.0;
    ConfidencePreimage(r, min, max, c);
  }

  /** `analyzeImage`: the mock prediction. The delay itself is not modelled;
      `analysisTime` reports the rounded simulated delay. */
  function AnalyzeImage(d: Draws): (p: Prediction)
    requires ValidDraws(d)
    ensures p.verdict == Str(RealPhoto) <==> d.verdict > 0.5
    ensures p.verdict == Str(RealPhoto) || p.verdict == Str(AiGenerated)
    ensures IntegerIn(p.confidence, 85, 98)
    ensures 2000 <= p.analysisTime <= 3000
    ensures IntegerIn(p.details.artifactScore, 70, 95)
    ensures IntegerIn(p.details.consistencyScore, 75, 98)
    ensures IntegerIn(p.details.patternScore, 80, 99)
    ensures p.analysisTime == RoundHalfUp(2000.0 + d.delay * 1000.0)
    ensures p.confidence == Num(GenerateConfidence(d.confidence, 85, 98) as real)
    ensures p.details == Details(Num(GenerateConfidence(d.artifact, 70, 95) as real),
                                 Num(GenerateConfidence(d.consistency, 75, 98) as real),
                                 Num(GenerateConfidence(d.pattern, 80, 99) as real))
  {
    var processingTime := 2000.0 + d.delay * 1000.0;
    var isReal := d.verdict > 0.5;
    Prediction(
      if isReal then Str(RealPhoto) else Str(AiGenerated),
      Num(GenerateConfidence(d.confidence, 85, 98) as real),
      RoundHalfUp(processingTime),
      Details(
        Num(GenerateConfidence(d.artifact, 70, 95) as real),
        Num(GenerateConfidence(d.consistency, 75, 98) as real),
        Num(GenerateConfidence(d.pattern, 80, 99) as real)))
  }

  /** The reported time reaches 3000 ms: rounding closes the upper end of the
      simulated [2000, 3000) ms delay. */
  lemma AnalysisTimeReaches3000()
    ensures var d := Draws(0.9995, 0.0, 0.0, 0.0, 0.0, 0.0);
            ValidDraws(d) && AnalyzeImage(d).analysisTime == 3000
  {
    var d := Draws(0.9995, 0.0, 0.0, 0.0, 0.0, 0.0);
    assert 2000.0 + d.delay * 1000.0 == 2999.5;
  }

  /** `validateImage`: missing file first, then the MIME whitelist, then the
      5 MiB ceiling. */
  function ValidateImage(file: Option<FileMeta>): (v: Validation)
    ensures file.None? ==> v == Invalid(NoFileMessage)
    ensures file.Some? ==>
              (file.value.mimeType !in ImageTypes ==> v == Invalid(InvalidTypeMessage))
    ensures file.Some? ==>
              (file.value.mimeType in ImageTypes ==>
                 (v == Invalid(TooLargeMessage) <==> file.value.size > 5242880))
    ensures v.Valid? <==> Acceptable(file)
  {
    if file.None? then Invalid(NoFileMessage)
    else if file.value.mimeType !in ValidTypes then Invalid(InvalidTypeMessage)
    else if file.value.size > MaxSize then Invalid(TooLargeMessage)
    else Valid
  }
}

=== FILE: previews.dfy ===
/** The browser's object-URL registry behind `URL.createObjectURL` and
    `URL.revokeObjectURL`, as an abstract handle allocator that records which
    handles are live. */
module Previews {
  import opened Wrappers

  /** An object URL, identified by the number of URLs created before it. */
  type Handle = nat

  /** `next` is the handle the next creation returns; `live` holds the handles
      created and not yet revoked. `|live|` is the leak counter. */
  datatype Registry = Registry(next: nat, live: set<Handle>)

  const Empty := Registry(0, {})

  /** Every live handle was handed out before. */
  predicate Valid(reg: Registry) {
    forall h :: h in reg.live ==> h < reg.next
  }

  /** The handles an optional preview holds: none for null, one otherwise. */
  function Held(url: Option<Handle>): set<Handle> {
    if url.Some? then {url.value} else {}
  }

  /** `URL.createObjectURL`: a fresh handle that becomes live. */
  function Create(reg: Registry): (res: (Registry, Handle))
    ensures Valid(reg) ==> res.1 !in reg.live
    ensures res.0.live == reg.live + {res.1}
    ensures Valid(reg) ==> |res.0.live| == |reg.live| + 1
    ensures Valid(reg) ==> Valid(res.0)
  {
    (Registry(reg.next + 1, reg.live + {reg.next}), reg.next)
  }

  /** `revokeImagePreview(url)`: revokes the handle when there is one and does
      nothing for null. Revoking an already revoked handle changes nothing. */
  function Revoke(reg: Registry, url: Option<Handle>): (r: Registry)
    ensures r.next == reg.next
    ensures r.live == reg.live - Held(url)
    ensures url.None? ==> r == reg
    ensures Valid(reg) ==> Valid(r)
  {
    match url
    case None => reg
    case Some(h) => Registry(reg.next, reg.live - {h})
  }

  /** Releasing twice is the same as releasing once. */
  lemma RevokeIdempotent(reg: Registry, url: Option<Handle>)
    ensures Revoke(Revoke(reg, url), url) == Revoke(reg, url)
  {
  }

  /** Acquiring a handle and releasing it restores the live set. */
  lemma CreateThenRevoke(reg: Registry)
    requires Valid(reg)
    ensures Revoke(Create(reg).0, Some(Create(reg).1)).live == reg.live
  {
  }
}

=== FILE: upload_section.dfy ===
/** The upload component's workflow: a three-phase state machine (idle,
    analyzing, result) with the selected file, its preview URL, the analysis
    result and the error banner text, plus the views each phase renders. */
module UploadSection {
  import opened Wrappers
  import opened Js
  import opened Domain
  import opened Previews
  import MockAiService

  /** `STATES`. */
  datatype Phase = Idle | Analyzing | ShowingResult

  const AnalysisFailedMessage := "Analysis failed. Please try again."

  /** The component's React state. `urls` is the browser's object-URL
      registry, which the component shares with nobody. */
  datatype Upload = Upload(
    phase: Phase,
    selectedImage: Option<FileMeta>,
    imagePreview: Option<Handle>,
    analysisResult: Option<Prediction>,
    error: Option<string>,
    urls: Registry)

  /** The state at mount: idle, everything null, no URL created. */
  function Init(): Upload {
    Upload(Idle, None, None, None, None, Previews.Empty)
  }

  /** What every reachable state satisfies: the only live URL is the one
      held in `imagePreview`; analyzing and result states hold a preview and
      a selected file and show no error; a result is stored exactly in the
      result phase; the selected file passed validation. */
  predicate Inv(s: Upload) {
    && Previews.Valid(s.urls)
    && s.urls.live == Held(s.imagePreview)
    && (s.phase != Idle ==> s.imagePreview.Some? && s.selectedImage.Some? && s.error.None?)
    && (s.analysisResult.Some? <==> s.phase == ShowingResult)
    && (s.selectedImage.Some? ==> Acceptable(s.selectedImage))
    && (s.error.Some? ==> s.error.value != "")
  }

  // ---------------------------------------------------------------------
  // Transitions
  // ---------------------------------------------------------------------

  /** `handleFile` up to the `await`: an invalid file only sets the error; a
      valid one releases the old preview, creates a new one, records the file
      and starts the analysis with the error cleared. It runs only in the idle
      phase, the one phase that renders the file input. */
  function HandleFile(s: Upload, file: FileMeta): (t: Upload)
    requires s.phase == Idle
    ensures !Acceptable(Some(file)) ==>
              t == s.(error := Some(MockAiService.ValidateImage(Some(file)).error))
    ensures !Acceptable(Some(file)) ==> t.phase == Idle && t.urls == s.urls
    ensures Acceptable(Some(file)) ==>
              && t.phase == Analyzing
              && t.error == None
              && t.selectedImage == Some(file)
              && t.analysisResult == s.analysisResult
              && t.imagePreview.Some?
              && t.urls.live == (s.urls.live - Held(s.imagePreview)) + {t.imagePreview.value}
    ensures Acceptable(Some(file)) && Previews.Valid(s.urls) ==> t.imagePreview.value !in s.urls.live
  {
    var validation := MockAiService.ValidateImage(Some(file));
    if validation.Invalid? then
      s.(error := Some(validation.error))
    else
      var released := Revoke(s.urls, s.imagePreview);
      var (urls, preview) := Create(released);
      s.(urls := urls, imagePreview := Some(preview), selectedImage := Some(file),
         phase := Analyzing, error := None)
  }

  /** `handleFileChange` / `handleDrop`: an empty pick does nothing. */
  function Pick(s: Upload, picked: Option<FileMeta>): (t: Upload)
    requires s.phase == Idle
    ensures picked.None? ==> t == s
    ensures picked.Some? ==> t == HandleFile(s, picked.value)
  {
    if picked.None? then s else HandleFile(s, picked.value)
  }

  /** The awaited prediction resolved: store it and show it. */
  function PredictionSucceeded(s: Upload, result: Prediction): (t: Upload)
    requires s.phase == Analyzing
    ensures t.phase == ShowingResult && t.analysisResult == Some(result)
    ensures t.imagePreview == s.imagePreview && t.urls == s.urls && t.error == s.error
    ensures t.selectedImage == s.selectedImage
  {
    s.(analysisResult := Some(result), phase := ShowingResult)
  }

  /** The awaited prediction threw: back to idle with the fixed message.
      The preview is kept. The idle view has no reset control, so it stays
      live until the next valid pick or unmount releases it. */
  function PredictionFailed(s: Upload): (t: Upload)
    requires s.phase == Analyzing
    ensures t.phase == Idle && t.error == Some(AnalysisFailedMessage)
    ensures t.imagePreview == s.imagePreview && t.urls == s.urls
    ensures t.selectedImage == s.selectedImage && t.analysisResult == s.analysisResult
  {
    s.(error := Some(AnalysisFailedMessage), phase := Idle)
  }

  /** `handleReset`'s completion callback: idle with nothing selected,
      previewed, stored or reported, and the preview released. */
  function Reset(s: Upload): (t: Upload)
    ensures t.phase == Idle
    ensures t.selectedImage == None && t.imagePreview == None
    ensures t.analysisResult == None && t.error == None
    ensures t.urls.live == s.urls.live - Held(s.imagePreview)
    ensures t.urls.next == s.urls.next
  {
    Upload(Idle, None, None, None, None, Revoke(s.urls, s.imagePreview))
  }

  /** The cleanup of the `[imagePreview]` effect: when a render changes
      `imagePreview`, the previous value is revoked. */
  function PreviewCleanup(before: Upload, after: Upload): (t: Upload)
    ensures t.urls.live == if before.imagePreview != after.imagePreview
                           then after.urls.live - Held(before.imagePreview)
                           else after.urls.live
    ensures t.urls.next == after.urls.next
    ensures t == after.(urls := t.urls)
  {
    if before.imagePreview != after.imagePreview
    then after.(urls := Revoke(after.urls, before.imagePreview))
    else after
  }

  /** The same cleanup when the component unmounts: the held preview is
      revoked. */
  function Unmount(s: Upload): (reg: Registry)
    ensures reg.live == s.urls.live - Held(s.imagePreview)
  {
    Revoke(s.urls, s.imagePreview)
  }

  // ---------------------------------------------------------------------
  // Rendering
  // ---------------------------------------------------------------------

  /** The three views: the upload area (file input, drop zone and the error
      banner when there is an error), the analyzing screen, and the result
      card with its reset button. */
  datatype View =
    | IdleView(banner: Option<string>)
    | AnalyzingView(preview: Option<Handle>)
    | ResultView(result: Option<Prediction>, preview: Option<Handle>)

  /** `{error && ...}`: the banner shows a truthy error. */
  function Banner(error: Option<string>): Option<string> {
    if error.Some? && error.value != "" then error else None
  }

  /** The three independent conditionals of the main render, in order. */
  function Rendered(s: Upload): seq<View> {
    (if s.phase == Idle then [IdleView(Banner(s.error))] else [])
    + (if s.phase == Analyzing then [AnalyzingView(s.imagePreview)] else [])
    + (if s.phase == ShowingResult then [ResultView(s.analysisResult, s.imagePreview)] else [])
  }

  /** The view contains the file input and the drop zone. */
  predicate AcceptsFiles(v: View) {
    v.IdleView?
  }

  /** The view contains the result card's reset button. */
  predicate OffersReset(v: View) {
    v.ResultView?
  }

  /** Exactly one view is rendered, and it is the one of the current phase. */
  lemma ExactlyOneView(s: Upload)
    ensures |Rendered(s)| == 1
    ensures Rendered(s)[0].IdleView? <==> s.phase == Idle
    ensures Rendered(s)[0].AnalyzingView? <==> s.phase == Analyzing
    ensures Rendered(s)[0].ResultView? <==> s.phase == ShowingResult
  {
  }

  /** The error banner appears only in the idle view, and then shows the
      stored error. */
  lemma BannerOnlyWhenIdle(s: Upload, i: int)
    requires 0 <= i < |Rendered(s)|
    requires Rendered(s)[i].IdleView? && Rendered(s)[i].banner.Some?
    ensures s.phase == Idle && Rendered(s)[i].banner == s.error
  {
  }

  // ---------------------------------------------------------------------
  // Runs of user and analysis events
  // ---------------------------------------------------------------------

  datatype Event =
    | FilePicked(file: Option<FileMeta>)
    | AnalysisDone(result: Prediction)
    | AnalysisThrew
    | ResetClicked

  /** Whether the event can occur: a pick needs the file input, a reset the
      result card, and a prediction outcome the pending call of the
      analyzing phase. */
  predicate Enabled(s: Upload, e: Event) {
    match e
    case FilePicked(_) => s.phase == Idle
    case ResetClicked => s.phase == ShowingResult
    case AnalysisDone(_) => s.phase == Analyzing
    case AnalysisThrew => s.phase == Analyzing
  }

  /** Picks and resets are enabled exactly when the rendered views offer the
      control that produces them. */
  lemma EnabledByRenderedControls(s: Upload, file: Option<FileMeta>)
    ensures Enabled(s, FilePicked(file)) <==> exists v :: v in Rendered(s) && AcceptsFiles(v)
    ensures Enabled(s, ResetClicked) <==> exists v :: v in Rendered(s) && OffersReset(v)
  {
    ExactlyOneView(s);
    var only := Rendered(s)[0];
    assert only in Rendered(s);
    assert forall v :: v in Rendered(s) ==> v == only;
  }

  /** The handler an enabled event runs. */
  function Apply(s: Upload, e: Event): Upload
    requires Enabled(s, e)
  {
    match e
    case FilePicked(file) => Pick(s, file)
    case AnalysisDone(result) => PredictionSucceeded(s, result)
    case AnalysisThrew => PredictionFailed(s)
    case ResetClicked => Reset(s)
  }

  /** One event: ignored unless enabled, otherwise its handler followed by
      the preview effect's cleanup. */
  function Step(s: Upload, e: Event): Upload {
    if Enabled(s, e) then PreviewCleanup(s, Apply(s, e)) else s
  }

  function Run(s: Upload, events: seq<Event>): Upload
    decreases |events|
  {
    if events == [] then s else Run(Step(s, events[0]), events[1..])
  }

  /** Every handler already revokes the preview it replaces, so the effect's
      cleanup frees nothing further: it revokes a handle that is no longer
      live. */
  lemma CleanupIsRedundant(s: Upload, e: Event)
    requires Inv(s) && Enabled(s, e)
    ensures PreviewCleanup(s, Apply(s, e)) == Apply(s, e)
  {
    var a := Apply(s, e);
    if s.imagePreview != a.imagePreview && s.imagePreview.Some? {
      assert s.imagePreview.value !in a.urls.live;
      assert a.urls.live - Held(s.imagePreview) == a.urls.live;
    }
  }

  lemma InitSatisfiesInv()
    ensures Inv(Init())
  {
  }

  /** Each event keeps the invariant. */
  lemma StepPreservesInv(s: Upload, e: Event)
    requires Inv(s)
    ensures Inv(Step(s, e))
  {
    if Enabled(s, e) {
      CleanupIsRedundant(s, e);
      match e
      case FilePicked(file) =>
        if file.Some? && Acceptable(file) {
          var t := Apply(s, e);
          assert t.urls.live == {t.imagePreview.value};
        }
      case AnalysisDone(_) =>
      case AnalysisThrew =>
      case ResetClicked =>
    }
  }

  /** Every run keeps the invariant. */
  lemma {:induction false} RunPreservesInv(s: Upload, events: seq<Event>)
    requires Inv(s)
    ensures Inv(Run(s, events))
    decreases |events|
  {
    if events != [] {
      StepPreservesInv(s, events[0]);
      RunPreservesInv(Step(s, events[0]), events[1..]);
    }
  }

  /** However the user and the analysis behave, at most one preview URL is
      live, and it is the one the component holds. */
  lemma AtMostOneLivePreview(events: seq<Event>)
    ensures |Run(Init(), events).urls.live| <= 1
    ensures Run(Init(), events).urls.live == Held(Run(Init(), events).imagePreview)
  {
    InitSatisfiesInv();
    RunPreservesInv(Init(), events);
  }

  /** A reset, or unmounting the component, leaves no live URL: the leak
      counter returns to zero. */
  lemma NothingLeaksAfterReset(s: Upload)
    requires Inv(s)
    ensures Reset(s).urls.live == {}
    ensures Unmount(s).live == {}
    ensures Inv(Reset(s))
  {
  }

  /** While the analysis is pending, further picks are ignored. */
  lemma {:induction false} PicksIgnoredWhileAnalyzing(s: Upload, events: seq<Event>)
    requires s.phase == Analyzing
    requires forall i :: 0 <= i < |events| ==> events[i].FilePicked?
    ensures Run(s, events) == s
    decreases |events|
  {
    if events != [] {
      assert Step(s, events[0]) == s;
      PicksIgnoredWhileAnalyzing(s, events[1..]);
    }
  }

  /** An invalid file leaves the component idle, shows the validator's
      message, and creates no URL. */
  lemma InvalidPickStaysIdle(s: Upload, file: FileMeta)
    requires Inv(s) && s.phase == Idle
    requires !Acceptable(Some(file))
    ensures var t := Step(s, FilePicked(Some(file)));
            && t.phase == Idle
            && t.urls == s.urls
            && t.error == Some(MockAiService.ValidateImage(Some(file)).error)
            && t.error.value in {NoFileMessage, InvalidTypeMessage, TooLargeMessage}
  {
  }

  /** A valid file followed by a mock prediction ends in the result phase
      with a label and a confidence the mock can produce. */
  lemma MockCycle(file: FileMeta, d: Draws)
    requires Acceptable(Some(file)) && ValidDraws(d)
    ensures var t := Run(Init(), [FilePicked(Some(file)), AnalysisDone(MockAiService.AnalyzeImage(d))]);
            && t.phase == ShowingResult
            && t.analysisResult.Some?
            && IntegerIn(t.analysisResult.value.confidence, 85, 98)
            && |t.urls.live| == 1
  {
    var p := MockAiService.AnalyzeImage(d);
    var events := [FilePicked(Some(file)), AnalysisDone(p)];
    var s1 := Step(Init(), events[0]);
    assert s1.phase == Analyzing;
    var s2 := Step(s1, events[1]);
    assert s2.analysisResult == Some(p);
    assert events[1..][1..] == [];
    assert Run(Init(), events) == Run(s1, events[1..]) == Run(s2, []) == s2;
    AtMostOneLivePreview(events);
  }
}

=== FILE: wrappers.dfy ===
/** Optional values and success/failure results, used wherever the source
    returns null, throws, or answers with an error body. */
module Wrappers {

  /** `null` / `undefined` versus a present value. */
  datatype Option<+T> = None | Some(value: T)

  /** A call that either returns a value or throws an error. */
  datatype Result<+T, +E> = Ok(value: T) | Err(error: E)
}
